=== FILE: README.md ===
# unox in Dafny

unox is the `unison-fsmonitor` adapter for macOS. Unison starts it and talks to
it over stdin and stdout in the fsmonitor line protocol. The client registers
replicas with `START`. unox watches each replica's root and records change
events in a collapsing per-replica trigger tree. `CHANGES` drains that tree as
`RECURSIVE` lines ending with `DONE`. `WAIT` asks to be told when a replica
changes; the notice is a pushed `CHANGES` line.

This project models the pure, sequential core of `unox.py`:

- `common.dfy`: module `Common`. `Option` and `Distinct`.
- `paths.dfy`: module `Paths`. Python's `str.split` and `str.join`,
  `pathTokenize`, two-argument `os.path.join`, root normalisation, and the
  prefix test of `Handler.dispatch`.
- `trigger.dfy`: module `TriggerTree`. The tree is `Node = Dirty |
  Branch(map<string, Node>)`. Recording (`Insert`, `Record`) follows
  `triggerReplica`. `DrainAt` follows `reportRecursiveChanges`. `Drain` is a
  reference drain over token routes, and the lemmas relate the two.
- `codec.dfy`: module `Codec`. The line framing of `sendCmd` and `recvCmd`.
  Python's `str.strip()` is included.
- `session.dfy`: module `Session`. `main` and `startReplicaMon` as one step
  function, `Step(state, input, env)`. It returns the next state and the lines
  written. An input is a decoded command, the end of input, or one file event.
  File events are atomic steps between commands. The process has terminated
  once the phase is `Exited(status)`.

Quirks of the code that the model keeps:

- `WAIT` on a replica that already has changes calls `sendCmd("CHANGES",
  replica)` with a string (unox.py:278). Each character becomes its own
  argument. The pushed notice at unox.py:150 passes `[replica]`.
- Sibling changes are not merged. Recording `x/y` and then `x/z` reports both,
  not `x`.
- The root is stored with a trailing slash. An event for the root spelled
  without that slash fails the prefix test and is dropped.
- `DEBUG` sets the debug flag; it does not toggle it.
- `RESET` does not touch the pending set itself. The set is emptied anyway,
  because every command but `WAIT` empties it.

## Model

| member | source | states |
|---|---|---|
| Paths.Split | unox.py:140 | `split` on one separator gives at least one piece, and no piece contains the separator; the first piece is a prefix of the string; there is exactly one piece when the separator does not occur |
| Paths.SplitFirst | unox.py:131 | the first piece of a split is the whole string, or is followed by the separator in it |
| Paths.SplitJoin | unox.py:138-143 | splitting the join of pieces without the separator gives the pieces back |
| Paths.JoinSplit | unox.py:138-143 | joining the pieces of a split gives the original string back |
| Paths.Tokenize | unox.py:138-143 | every token is non-empty and free of `/`; `Paths.TokenizeSegment` and `Paths.TokenizeCons` fix the tokens of every string |
| Paths.TokenizeSegment | unox.py:138-143 | a string without `/` is its own only token, or gives no token when empty |
| Paths.TokenizeCons | unox.py:138-143 | the text before the first `/` becomes the first token when non-empty and is dropped when empty; the rest is tokenised in order after it |
| Paths.TokenizeJoinPath | unox.py:138-143 | re-tokenising the `/`-join of a valid token path gives the same tokens |
| Paths.JoinPathInjective | unox.py:238-239 | distinct valid token routes are reported as distinct strings |
| Paths.PathJoin | unox.py:207 | two-argument `os.path.join`; its behaviour is stated by `Paths.PathJoinAppends` and `Paths.PathJoinSegment` |
| Paths.PathJoinAppends | unox.py:207 | an absolute second part replaces the first; otherwise the result starts with the first part and ends with the second, with one `/` added between them exactly when the first part is non-empty and does not end with `/` |
| Paths.PathJoinSegment | unox.py:239 | `os.path.join(prefix, token)` along a route builds the `/`-join of that route |
| Paths.NormalizeRoot | unox.py:206-207 | the stored root is the given path unchanged when it is empty or already ends with `/`, and the given path plus `/` otherwise |
| Paths.NormalizeRootIdempotent | unox.py:207 | normalising an already normalised root changes nothing |
| Paths.LocalTokens | unox.py:187-190 | a kept event path yields valid tokens |
| Paths.LocalTokensExact | unox.py:187-190 | a path of the form root plus a joined token path yields those tokens; a path not starting with the root is dropped |
| Paths.LocalTokensAtRoot | unox.py:187-190 | the root with its slash yields the empty path; the root without its slash is dropped |
| TriggerTree.Insert | unox.py:153-175 | after recording, a dirty node lies on the route to the recorded path |
| TriggerTree.Record | unox.py:146-175 | recording adds only the replica's key, and other replicas' trees are unchanged |
| TriggerTree.RecordRoot | unox.py:153-155 | recording the empty path makes the replica's tree dirty, whatever it held |
| TriggerTree.InsertCovered | unox.py:162-173 | if a dirty node lies on the route (a dirty root included), recording changes nothing |
| TriggerTree.RecordCovered | unox.py:156-173 | the same, for the replica map |
| TriggerTree.InsertCovers | unox.py:153-175 | after recording, the tree covers exactly what it covered before plus every path at or below the recorded one |
| TriggerTree.InsertOffRoute | unox.py:162-175 | subtrees off the recorded route are unchanged |
| TriggerTree.InsertAlongRoute | unox.py:162-175 | for an uncovered path, each node on the route is a branch holding its old keys plus the next segment, and the node at the path is dirty, overwriting any branch |
| TriggerTree.InsertWf | unox.py:156-175 | recording a valid path keeps every branch non-empty and every key a valid segment |
| TriggerTree.RecordWf | unox.py:146-175 | the same for every replica's tree |
| TriggerTree.RecordAllCovers | unox.py:146-175 | after a sequence of recordings, a path is covered exactly when it was covered before or lies at or below one of the recorded paths |
| TriggerTree.RecordAllFromNothing | unox.py:146-175 | from nothing, the covered paths are exactly those at or below a recorded one: none lost, none invented |
| TriggerTree.Enumerate | unox.py:238 | iterating the children visits every key exactly once |
| TriggerTree.DrainAt | unox.py:234-239 | reportRecursiveChanges: as many strings as the reference drain has routes; `TriggerTree.DrainAtJoined`, `TriggerTree.ReportedRoutes` and `TriggerTree.ReportedStrings` state what the strings are |
| TriggerTree.DrainChildrenAt | unox.py:238-239 | the loop over the children: as many strings as the reference drain of those children has routes |
| TriggerTree.DrainMembers | unox.py:234-239 | a route is drained exactly when a dirty node sits there |
| TriggerTree.DrainChildrenMembers | unox.py:238-239 | draining the children yields exactly the routes through one of them to a dirty node |
| TriggerTree.DrainChildrenHeads | unox.py:238-239 | every route drained from the children starts with one of their keys |
| TriggerTree.DrainDistinct | unox.py:234-239 | no route is drained twice |
| TriggerTree.DrainChildrenDistinct | unox.py:238-239 | draining distinct children yields no route twice |
| TriggerTree.DrainNonEmpty | unox.py:234-239 | a present, well-formed tree drains to at least one route |
| TriggerTree.DirtyAtAntichain | unox.py:235-237 | a dirty node has nothing below it, so two dirty routes are never one above the other |
| TriggerTree.DrainAntichain | unox.py:234-239 | no drained route is a segment-prefix of another |
| TriggerTree.CoversDirtyPrefix | unox.py:234-239 | a tree covers a path exactly when a dirty node sits on one of its prefixes |
| TriggerTree.DrainCovers | unox.py:234-239 | a tree covers a path exactly when the drain has a route that is a prefix of it |
| TriggerTree.RecordedIsReported | unox.py:234-239 | after recording a path, the drain has a route that is a prefix of it |
| TriggerTree.DrainAtJoined | unox.py:234-239 | the strings reportRecursiveChanges builds are the `/`-joins of the drained routes |
| TriggerTree.DrainChildrenAtJoined | unox.py:238-239 | the same, for the loop over the children |
| TriggerTree.ReportedRoutes | unox.py:234-239 | the i-th reported string is the `/`-join of the i-th drained route, which is valid and ends at a dirty node |
| TriggerTree.ReportedStrings | unox.py:234-239 | the reported strings are distinct and at least one; a valid route's join is reported exactly when a dirty node sits there |
| TriggerTree.DirtyAtValid | unox.py:238-239 | in a well-formed tree, every route to a node is made of valid segments |
| TriggerTree.DirtyRootReport | unox.py:235-236 | a dirty root is reported as the single empty path |
| TriggerTree.SiblingsTree | unox.py:162-175 | after recording `x/y` and `x/z`, both leaves are dirty, `x` is not, and the tree is well-formed |
| TriggerTree.SiblingLeavesReported | unox.py:234-239 | a well-formed tree with dirty leaves at `x/y` and `x/z` and no dirty node at `x` reports both leaves and not `x` |
| TriggerTree.SiblingsNotMerged | unox.py:162-175 | after recording `x/y` and `x/z`, both are reported and `x` is not |
| Codec.Encode | unox.py:93-98 | sendCmd: the line starts with the command and ends with a newline, and a line without arguments is the command and the newline; `Codec.EncodeArgsJoin` and `Codec.ReceiveEncode` state the rest |
| Codec.Decode | unox.py:131-135 | the command is the stripped line up to its first space (the whole line when it has none), and there are arguments exactly when the stripped line holds a space |
| Codec.DecodeWords | unox.py:131-135 | a stripped line that is the space-join of a command word and argument words decodes to that command and those words unquoted, one argument per word, empty words included |
| Codec.DoubledSpace | unox.py:131-135 | a doubled space between command and argument is not collapsed: it yields an empty argument before the real one |
| Codec.Receive | unox.py:116-135 | recvCmd: no command exactly when the line lacks its trailing newline |
| Codec.Strip | unox.py:131 | `str.strip()`: the left-stripped line with only white space dropped from its end, neither starting nor ending with white space; a string without white space is unchanged |
| Codec.StripLeft | unox.py:131 | removes exactly the leading white space |
| Codec.StripRight | unox.py:131 | removes exactly the trailing white space |
| Codec.EncodeArgsJoin | unox.py:93-98 | a written line is the space-join of the command and the quoted arguments |
| Codec.JoinWithLast | unox.py:96 | a join ends with the last character of its last piece |
| Codec.StripTrailing | unox.py:131 | stripping removes only the trailing white space after a word |
| Codec.StripEncode | unox.py:93-131 | stripping a written line removes only its newline, leaving the space-join of the command and the quoted arguments |
| Codec.ReceiveEncode | unox.py:93-135 | if quoting never yields white space and unquote undoes quote, reading a written line gives back its command and arguments, provided the last argument quotes to a non-empty word |
| Codec.TrailingEmptyArgumentLost | unox.py:93-135 | a trailing empty argument is written as a trailing space, which reading strips away |
| Session.ReceiveInput | unox.py:116-135 | the session ends exactly when the line lacks its newline |
| Session.InitInv | unox.py:242-245 | the session announces `VERSION 1` and starts in the handshake with nothing registered |
| Session.StepInv | unox.py:242-307 | every step keeps the invariant: trees are well-formed and belong to registered replicas; pending replicas are registered and have no tree; nothing is pending in the START sub-loop |
| Session.Step | unox.py:242-307 | main and startReplicaMon as one step: an ended session stays as it is; a running one exits with status 0 exactly on end of input and otherwise only with status 1; the debug flag is never cleared |
| Session.OnVersion | unox.py:246-251 | the handshake reaches the main loop exactly on VERSION with one argument, otherwise exits with status 1, and changes nothing but the phase |
| Session.OnStartCommand | unox.py:222-231 | the sub-loop writes at most one line, OK exactly for DIR; it writes nothing exactly for DONE, which returns to the main loop; only the phase changes |
| Session.OnCommand | unox.py:255-307 | every command but WAIT empties the pending set; only START and RESET change the registry; only CHANGES and RESET change the trees |
| Session.OnStart | unox.py:203-221 | START leaves trees and pending set alone; it enters the sub-loop with OK and the replica registered (other roots unchanged), or exits with status 1 |
| Session.OnWait | unox.py:271-282 | WAIT writes nothing exactly for a registered replica without a tree, which becomes pending; otherwise it writes one line and empties the set or exits |
| Session.OnChanges | unox.py:283-292 | CHANGES on a registered replica ends with DONE and deletes only that tree; on an unknown one it exits with status 1 |
| Session.OnReset | unox.py:293-305 | RESET writes nothing; for an unknown replica nothing changes; for a known one only its root and its tree are removed |
| Session.OnEvent | unox.py:146-192 | an event never changes the registry or the phase; it writes one `CHANGES replica` line exactly when the replica is registered, pending and the path is under its root, and then empties the pending set |
| Session.Characters | unox.py:278 | the replica string as arguments: one per character, each that character |
| Session.HandshakeWrongCommand | unox.py:246-248 | a first reply other than VERSION writes ERROR and exits with status 1 |
| Session.HandshakeAnyVersion | unox.py:249-251 | any single version number enters the main loop silently; a mismatch is only a warning |
| Session.EndOfInputExits | unox.py:125-128 | a closed input ends a running session with status 0 and no output |
| Session.ExitedIsFinal | unox.py:111-113 | after exit nothing changes and nothing is written |
| Session.ErrorIsFatal | unox.py:111-113 | every ERROR line is the only line of its step, and the process exits with status 1 |
| Session.NonWaitClearsPending | unox.py:257-258 | every main-loop command but WAIT empties the pending set |
| Session.WaitWithChanges | unox.py:276-279 | WAIT on a replica with a tree replies at once, one argument per character, and empties the pending set |
| Session.WaitWithoutChanges | unox.py:280-281 | WAIT on a replica without a tree adds it to the pending set and writes nothing |
| Session.EventForPendingReplica | unox.py:148-151 | an event for a pending replica writes exactly one `CHANGES replica`, empties the whole set, and records the change |
| Session.EventForQuietReplica | unox.py:184-192 | an event for a replica not waited on records the change and writes nothing |
| Session.EventOutsideRoot | unox.py:187-188 | an event outside the root changes nothing |
| Session.ChangesReportsTree | unox.py:283-291 | CHANGES writes distinct RECURSIVE lines, as many as the tree has dirty nodes and at least one, each naming a dirty node's route, and a valid route's line among them exactly when it is dirty; then DONE; the tree is deleted |
| Session.ReportLines | unox.py:234-239 | the RECURSIVE lines of a tree: one per drained route, each naming the join of a dirty route, none twice, at least one |
| Session.ChangesDirtyRoot | unox.py:288-291 | a dirty root is reported as `RECURSIVE ""` then DONE |
| Session.ChangesTwice | unox.py:288-291 | CHANGES ends with DONE, and a second CHANGES with no event in between writes DONE alone |
| Session.UnknownReplicaFatal | unox.py:271-287 | WAIT or CHANGES on an unregistered replica writes ERROR and exits |
| Session.ResetUnknown | unox.py:293-298 | RESET of an unknown replica only empties the pending set |
| Session.ResetKnown | unox.py:299-304 | RESET of a known replica removes its root and tree, empties the pending set and changes nothing else |
| Session.StartRegistered | unox.py:205-221 | START on a registered replica acknowledges, consults no backend and leaves the registry unchanged |
| Session.StartNew | unox.py:203-221 | START on a new replica registers the normalised root and replies OK, or replies with the backend's ERROR and exits; in both cases the rest of the state is unchanged apart from the emptied pending set |
| Session.StartBadArity | unox.py:262-269 | START with fewer than two or more than three arguments crashes with status 1 and writes nothing |
| Session.DebugSets | unox.py:260-261 | DEBUG sets the flag and writes nothing; a second DEBUG changes nothing more |
| Session.StartLoop | unox.py:222-231 | in the sub-loop, DIR replies OK, DONE returns silently, and LINK or anything else writes ERROR and exits |
| Session.RootEventScenario | unox.py:184-207 | for a replica started at `/tmp/a`, an event at `/tmp/a` is dropped, and an event at `/tmp/a/` is reported as `RECURSIVE ""` |

## Left out

- The watchdog observer, `schedule`/`unschedule` and watch handles belong to a foreign library. The model stores only the root. The outcome of `schedule` is the parameter `Env.scheduleError`; a failure gives ERROR and exit.
- Threads: a file event is one atomic step between commands. A late event racing with `RESET` is not modelled. The source would re-create a tree for the unregistered replica; the model drops events for unregistered replicas.
- Output buffering and flushing, `os._exit`/`sys.exit`, the SIGINT handler and `KeyboardInterrupt` are I/O. Termination is the `Exited(status)` phase.
- The exception catch-all in `Handler.dispatch` (unox.py:193-199) ends the process with status 1 when the event callback faults. The model's event step cannot fault. The only ways to reach the catch-all are a failed write, such as a broken pipe in `injectCmd`, or a race between threads. Both are left out, so this exit is not modelled.
- `quote` and `unquote` are library code and are passed in as functions. Three lemmas assume something about them, as preconditions. `Codec.StripEncode` assumes that quoting never yields white space and that the last argument quotes to a non-empty word. `Codec.ReceiveEncode` assumes the same two things and also that `unquote` undoes `quote`. `Codec.TrailingEmptyArgumentLost` assumes that `quote("")` is empty.
- Logging is diagnostic output only: `_debug`, `_debug_triggers`, `warn`, `format_exception`, and the debug flag's effect. The flag itself is kept in the state.
- The `finally` teardown at unox.py:313-317 only releases watches, and the model has no watch handles.
- Argument lists that Python cannot unpack raise an exception and end the process with status 1. The model writes nothing and moves to `Exited(1)`; the traceback is left out.
- `str.strip()` follows Python 3. Python 2's ASCII-only white space is not modelled.
- ChangesReportsTree: claims no order for the RECURSIVE lines. The source emits them in dict insertion order; the model walks children in an unspecified but fixed order (`Enumerate`).
- ReportedStrings: claims no order, for the same reason.

=== FILE: codec.dfy ===
/**
  The line framing of the Unison fsmonitor protocol as unox writes and reads
  it (`sendCmd` and `recvCmd`). Percent-encoding is the library's `quote` and
  `unquote`; both are parameters here and nothing is assumed about them except
  where a lemma says so.
 */
module Codec {
  import opened Common
  import opened Paths

  /** One protocol line: a command word and its (unencoded) arguments. */
  datatype Line = Line(cmd: string, args: seq<string>)

  /** The characters Python 3's `str.strip()` removes. */
  predicate IsSpace(c: char) {
    || c == ' '
    || '\t' <= c <= '\r'
    || '\U{1C}' <= c <= '\U{1F}'
    || c == '\U{85}' || c == '\U{A0}' || c == '\U{1680}'
    || '\U{2000}' <= c <= '\U{200A}'
    || c == '\U{2028}' || c == '\U{2029}' || c == '\U{202F}' || c == '\U{205F}' || c == '\U{3000}'
  }

  predicate NoSpace(s: string) {
    forall i :: 0 <= i < |s| ==> !IsSpace(s[i])
  }

  /** Drops leading white space: the result is the longest suffix of `s`
      that does not start with white space. */
  function StripLeft(s: string): (r: string)
    ensures |r| <= |s| && r == s[|s| - |r|..]
    ensures forall i :: 0 <= i < |s| - |r| ==> IsSpace(s[i])
    ensures r == "" || !IsSpace(r[0])
    decreases |s|
  {
    if |s| > 0 && IsSpace(s[0]) then StripLeft(s[1..]) else s
  }

  /** Drops trailing white space: the result is the longest prefix of `s`
      that does not end with white space. */
  function StripRight(s: string): (r: string)
    ensures r <= s
    ensures forall i :: |r| <= i < |s| ==> IsSpace(s[i])
    ensures r == "" || !IsSpace(r[|r| - 1])
    decreases |s|
  {
    if |s| > 0 && IsSpace(s[|s| - 1]) then StripRight(s[..|s| - 1]) else s
  }

  /** Python's `str.strip()`: a prefix of the left-stripped string that
      neither starts nor ends with white space. */
  function Strip(s: string): (r: string)
    ensures r <= StripLeft(s)
    ensures forall i :: |r| <= i < |StripLeft(s)| ==> IsSpace(StripLeft(s)[i])
    ensures r == "" || (!IsSpace(r[0]) && !IsSpace(r[|r| - 1]))
    ensures NoSpace(s) ==> r == s
  {
    StripRight(StripLeft(s))
  }

  /** sendCmd's argument loop: a space and the quoted argument, per argument. */
  function EncodeArgs(args: seq<string>, quote: string -> string): string
    decreases |args|
  {
    if args == [] then "" else " " + quote(args[0]) + EncodeArgs(args[1..], quote)
  }

  /** sendCmd (unox.py:93-98): the text written for one line. */
  function Encode(l: Line, quote: string -> string): (r: string)
    ensures l.cmd <= r && r != "" && r[|r| - 1] == '\n'
    ensures l.args == [] ==> r == l.cmd + "\n"
  {
    l.cmd + EncodeArgs(l.args, quote) + "\n"
  }

  /** recvCmd's parsing (unox.py:131-135): strip, split on single spaces, take
      the first word as the command and unquote the others. */
  function Decode(line: string, unquote: string -> string): (r: Line)
    ensures r.cmd <= Strip(line) && ' ' !in r.cmd
    ensures r.cmd == Strip(line) || r.cmd + " " <= Strip(line)
    ensures r.args == [] <==> ' ' !in Strip(line)
  {
    SplitFirst(Strip(line), ' ');
    var words := Split(Strip(line), ' ');
    Line(words[0], seq(|words| - 1, i requires 0 <= i < |words| - 1 => unquote(words[i + 1])))
  }

  /** Any stripped line that is the space-join of a command word and
      argument words decodes to that command and those words unquoted, empty
      words included (a doubled space yields an empty argument). */
  lemma DecodeWords(line: string, cmd: string, words: seq<string>, unquote: string -> string)
    requires ' ' !in cmd && forall i :: 0 <= i < |words| ==> ' ' !in words[i]
    requires Strip(line) == JoinWith([cmd] + words, ' ')
    ensures Decode(line, unquote).cmd == cmd
    ensures |Decode(line, unquote).args| == |words|
    ensures forall i :: 0 <= i < |words| ==> Decode(line, unquote).args[i] == unquote(words[i])
  {
    var ws := [cmd] + words;
    forall i | 0 <= i < |ws|
      ensures ' ' !in ws[i]
    {
      if i > 0 {
        assert ws[i] == words[i - 1];
      }
    }
    SplitJoin(ws, ' ');
    var split := Split(Strip(line), ' ');
    assert split == ws;
    var d := Decode(line, unquote);
    assert d.cmd == split[0] == cmd;
    assert |d.args| == |split| - 1 == |words|;
    forall i | 0 <= i < |words|
      ensures d.args[i] == unquote(words[i])
    {
      assert d.args[i] == unquote(split[i + 1]);
      assert split[i + 1] == words[i];
    }
  }

  /** The join of a word, an empty word and another word has two spaces in
      the middle. */
  lemma JoinDoubledSpace(cmd: string, arg: string)
    ensures JoinWith([cmd, "", arg], ' ') == cmd + "  " + arg
  {
    var ws := [cmd, "", arg];
    assert ws[1..] == ["", arg];
    assert ws[1..][1..] == [arg];
    assert JoinWith(["", arg], ' ') == [' '] + arg;
    assert cmd + "  " + arg == cmd + [' '] + ([' '] + arg);
  }

  /** A doubled space is not collapsed: a line such as `WAIT  r` reads as
      WAIT with an empty argument before `r`, as Python's `split(" ")` gives
      it. */
  lemma DoubledSpace(cmd: string, arg: string, unquote: string -> string)
    requires cmd != "" && NoSpace(cmd) && arg != "" && NoSpace(arg)
    ensures var d := Decode(cmd + "  " + arg + "\n", unquote);
            d.cmd == cmd && d.args == [unquote(""), unquote(arg)]
  {
    var body := cmd + "  " + arg;
    JoinDoubledSpace(cmd, arg);
    assert IsSpace('\n') && IsSpace(' ');
    assert body[0] == cmd[0];
    assert body[|body| - 1] == arg[|arg| - 1];
    StripTrailing(body, "\n");
    assert ' ' !in cmd && ' ' !in arg;
    assert [cmd] + ["", arg] == [cmd, "", arg];
    DecodeWords(body + "\n", cmd, ["", arg], unquote);
  }

  /** recvCmd (unox.py:116-135): a line without its trailing newline means the
      input is closed; otherwise the decoded command. */
  function Receive(line: string, unquote: string -> string): (r: Option<Line>)
    ensures r.None? <==> line == "" || line[|line| - 1] != '\n'
  {
    if |line| > 0 && line[|line| - 1] == '\n' then Some(Decode(line, unquote)) else None
  }

  /** The quoted arguments. */
  function Quoted(args: seq<string>, quote: string -> string): (r: seq<string>)
    ensures |r| == |args|
  {
    seq(|args|, i requires 0 <= i < |args| => quote(args[i]))
  }

  /** The encoded line, without its newline, is the space-join of the command
      and the quoted arguments. */
  lemma {:induction false} EncodeArgsJoin(w: string, args: seq<string>, quote: string -> string)
    ensures w + EncodeArgs(args, quote) == JoinWith([w] + Quoted(args, quote), ' ')
    decreases |args|
  {
    if args != [] {
      var q := quote(args[0]);
      EncodeArgsJoin(q, args[1..], quote);
      assert Quoted(args, quote) == [q] + Quoted(args[1..], quote);
      var ws := [w] + Quoted(args, quote);
      assert ws[1..] == [q] + Quoted(args[1..], quote);
    }
  }

  /** The last character of a join is the last character of its last piece. */
  lemma {:induction false} JoinWithLast(ws: seq<string>, c: char)
    requires |ws| >= 1 && ws[|ws| - 1] != ""
    ensures JoinWith(ws, c) != ""
    ensures JoinWith(ws, c)[|JoinWith(ws, c)| - 1] == ws[|ws| - 1][|ws[|ws| - 1]| - 1]
    decreases |ws|
  {
    if |ws| > 1 {
      JoinWithLast(ws[1..], c);
    }
  }

  /** Stripping a string that neither starts nor ends with white space,
      followed only by white space, gives the string back. */
  lemma {:induction false} StripTrailing(s: string, tail: string)
    requires s != "" && !IsSpace(s[0]) && !IsSpace(s[|s| - 1])
    requires forall i :: 0 <= i < |tail| ==> IsSpace(tail[i])
    ensures Strip(s + tail) == s
    decreases |tail|
  {
    var t := s + tail;
    assert StripLeft(t) == t;
    if tail == [] {
      assert t == s;
    } else {
      assert t[..|t| - 1] == s + tail[..|tail| - 1];
      StripTrailing(s, tail[..|tail| - 1]);
    }
  }

  /** A written line, stripped, is the space-join of the command and the
      quoted arguments: the newline goes and nothing else, provided the line
      neither starts nor ends with white space. */
  lemma StripEncode(l: Line, quote: string -> string)
    requires l.cmd != "" && NoSpace(l.cmd)
    requires forall s :: NoSpace(quote(s))
    requires l.args != [] ==> quote(l.args[|l.args| - 1]) != ""
    ensures Strip(Encode(l, quote)) == JoinWith([l.cmd] + Quoted(l.args, quote), ' ')
  {
    var ws := [l.cmd] + Quoted(l.args, quote);
    var body := JoinWith(ws, ' ');
    EncodeArgsJoin(l.cmd, l.args, quote);
    assert Encode(l, quote) == body + "\n";
    JoinWithLast(ws, ' ');
    assert NoSpace(ws[|ws| - 1]);
    assert body[0] == l.cmd[0] by {
      if |ws| > 1 {
        assert body == l.cmd + [' '] + JoinWith(ws[1..], ' ');
      }
    }
    StripTrailing(body, "\n");
  }

  /** Framing round trip: when quoting never produces white space and
      `unquote` undoes `quote`, reading back a written line gives the same
      command and arguments, provided the command is a non-empty word and the
      last argument does not quote to the empty string. */
  lemma ReceiveEncode(l: Line, quote: string -> string, unquote: string -> string)
    requires l.cmd != "" && NoSpace(l.cmd)
    requires forall s :: NoSpace(quote(s))
    requires forall s :: unquote(quote(s)) == s
    requires l.args != [] ==> quote(l.args[|l.args| - 1]) != ""
    ensures Receive(Encode(l, quote), unquote) == Some(l)
  {
    StripEncode(l, quote);
    var qs := Quoted(l.args, quote);
    assert IsSpace(' ');
    assert ' ' !in l.cmd;
    forall i | 0 <= i < |qs|
      ensures ' ' !in qs[i]
    {
      assert NoSpace(quote(l.args[i]));
    }
    DecodeWords(Encode(l, quote), l.cmd, qs, unquote);
    var d := Decode(Encode(l, quote), unquote);
    assert d.args == l.args;
  }

  /** An empty last argument does not survive the round trip: a line such as
      the whole-replica report `RECURSIVE ""` is written with a trailing space
      and reads back with no argument at all. */
  lemma TrailingEmptyArgumentLost(cmd: string, quote: string -> string, unquote: string -> string)
    requires cmd != "" && NoSpace(cmd)
    requires quote("") == ""
    ensures Encode(Line(cmd, [""]), quote) == cmd + " \n"
    ensures Receive(cmd + " \n", unquote) == Some(Line(cmd, []))
  {
    assert EncodeArgs([""], quote) == " ";
    var line := cmd + " \n";
    assert IsSpace(' ') && IsSpace('\n');
    StripTrailing(cmd, " \n");
    assert ' ' !in cmd;
    SplitNoSeparator(cmd, ' ');
    assert Decode(line, unquote) == Line(cmd, []);
  }
}

=== FILE: common.dfy ===
/** Small vocabulary shared by every module of the unox model. */
module Common {

  /** A value that may be absent. */
  datatype Option<+T> = None | Some(value: T)

  /** No element of `s` occurs twice. */
  predicate Distinct<T(==)>(s: seq<T>) {
    forall i, j :: 0 <= i < j < |s| ==> s[i] != s[j]
  }
}

=== FILE: paths.dfy ===
/**
  Path strings as unox handles them: Python's `str.split` with an explicit
  separator and its inverse `str.join`, `pathTokenize`, the two-argument
  `os.path.join`, and the prefix test with which a watch handler turns an
  absolute event path into the token path below its replica root.
 */
module Paths {
  import opened Common

  /** A path below a replica root, one directory or file name per element. */
  type Path = seq<string>

  /** A segment as `pathTokenize` produces it: non-empty and free of `/`. */
  predicate ValidSegment(w: string) {
    w != "" && '/' !in w
  }

  predicate ValidPath(p: Path) {
    forall i :: 0 <= i < |p| ==> ValidSegment(p[i])
  }

  /** Python's `s.split(c)`: the pieces between occurrences of `c`, always at
      least one (the empty string splits into `[""]`), none containing `c`. */
  function Split(s: string, c: char): (r: seq<string>)
    ensures |r| >= 1
    ensures forall i :: 0 <= i < |r| ==> c !in r[i]
    ensures r[0] <= s
    ensures |r| == 1 <==> c !in s
    decreases |s|
  {
    if |s| == 0 then [""]
    else
      var rest := Split(s[1..], c);
      assert s == [s[0]] + s[1..];
      if s[0] == c then [""] + rest
      else [[s[0]] + rest[0]] + rest[1..]
  }

  /** The first piece of a split is the whole string or is followed by the
      separator. */
  lemma {:induction false} SplitFirst(s: string, c: char)
    ensures Split(s, c)[0] == s || Split(s, c)[0] + [c] <= s
    decreases |s|
  {
    if |s| > 0 && s[0] != c {
      SplitFirst(s[1..], c);
      assert s == [s[0]] + s[1..];
    }
  }

  /** Python's `c.join(ws)`. */
  function JoinWith(ws: seq<string>, c: char): string
  {
    if |ws| == 0 then ""
    else if |ws| == 1 then ws[0]
    else ws[0] + [c] + JoinWith(ws[1..], c)
  }

  /** Splitting `w + c + rest` yields `w` first when `w` holds no `c`. */
  lemma {:induction false} SplitPrepend(w: string, c: char, rest: string)
    requires c !in w
    ensures Split(w + [c] + rest, c) == [w] + Split(rest, c)
    decreases |w|
  {
    var s := w + [c] + rest;
    if w == [] {
      assert s[1..] == rest;
    } else {
      assert s[1..] == w[1..] + [c] + rest;
      SplitPrepend(w[1..], c, rest);
      assert [w[0]] + w[1..] == w;
    }
  }

  /** A string without `c` splits into itself alone. */
  lemma {:induction false} SplitNoSeparator(w: string, c: char)
    requires c !in w
    ensures Split(w, c) == [w]
    decreases |w|
  {
    if w != [] {
      SplitNoSeparator(w[1..], c);
      assert [w[0]] + w[1..] == w;
    }
  }

  /** `split` undoes `join` when no piece contains the separator. */
  lemma {:induction false} SplitJoin(ws: seq<string>, c: char)
    requires |ws| >= 1
    requires forall i :: 0 <= i < |ws| ==> c !in ws[i]
    ensures Split(JoinWith(ws, c), c) == ws
    decreases |ws|
  {
    if |ws| == 1 {
      SplitNoSeparator(ws[0], c);
    } else {
      SplitJoin(ws[1..], c);
      SplitPrepend(ws[0], c, JoinWith(ws[1..], c));
      assert [ws[0]] + ws[1..] == ws;
    }
  }

  /** `join` undoes `split` on every string. */
  lemma {:induction false} JoinSplit(s: string, c: char)
    ensures JoinWith(Split(s, c), c) == s
    decreases |s|
  {
    if |s| > 0 {
      var rest := Split(s[1..], c);
      JoinSplit(s[1..], c);
      if s[0] == c {
        assert JoinWith([""] + rest, c) == "" + [c] + JoinWith(rest, c);
      } else {
        var ws := [[s[0]] + rest[0]] + rest[1..];
        if |rest| == 1 {
          assert JoinWith(ws, c) == [s[0]] + rest[0];
        } else {
          assert ws[1..] == rest[1..];
          assert JoinWith(ws, c) == [s[0]] + rest[0] + [c] + JoinWith(rest[1..], c);
        }
      }
      assert [s[0]] + s[1..] == s;
    }
  }

  /** The pieces of `ws` that are not empty, in order. */
  function NonEmpty(ws: seq<string>): (r: seq<string>)
    ensures forall i :: 0 <= i < |r| ==> r[i] != "" && r[i] in ws
    decreases |ws|
  {
    if ws == [] then []
    else (if ws[0] == "" then [] else [ws[0]]) + NonEmpty(ws[1..])
  }

  /** unox.py `pathTokenize`: split on `/` and drop the empty pieces. */
  function Tokenize(path: string): (r: Path)
    ensures ValidPath(r)
  {
    NonEmpty(Split(path, '/'))
  }

  /** Tokenising a string without `/` yields it as the only token, or
      nothing when it is empty. */
  lemma TokenizeSegment(w: string)
    requires '/' !in w
    ensures Tokenize(w) == if w == "" then [] else [w]
  {
    SplitNoSeparator(w, '/');
    assert [w][1..] == [];
    assert NonEmpty([w]) == (if w == "" then [] else [w]) + NonEmpty([]);
  }

  /** Tokenising peels off the text before the first `/`: an empty piece is
      dropped and a non-empty one kept, in order. */
  lemma TokenizeCons(w: string, rest: string)
    requires '/' !in w
    ensures Tokenize(w + "/" + rest) == (if w == "" then [] else [w]) + Tokenize(rest)
  {
    SplitPrepend(w, '/', rest);
    var ws := [w] + Split(rest, '/');
    assert ws[1..] == Split(rest, '/');
  }

  /** The relative path string naming token path `p`. */
  function JoinPath(p: Path): string
  {
    JoinWith(p, '/')
  }

  lemma {:induction false} NonEmptyOfNonEmpty(ws: seq<string>)
    requires forall i :: 0 <= i < |ws| ==> ws[i] != ""
    ensures NonEmpty(ws) == ws
    decreases |ws|
  {
    if ws != [] {
      NonEmptyOfNonEmpty(ws[1..]);
      assert [ws[0]] + ws[1..] == ws;
    }
  }

  /** Re-tokenising the `/`-join of a token path gives the same tokens. */
  lemma TokenizeJoinPath(p: Path)
    requires ValidPath(p)
    ensures Tokenize(JoinPath(p)) == p
  {
    if p != [] {
      SplitJoin(p, '/');
      NonEmptyOfNonEmpty(p);
    }
  }

  /** Distinct token paths name distinct relative path strings. */
  lemma JoinPathInjective(p: Path, q: Path)
    requires ValidPath(p) && ValidPath(q)
    ensures JoinPath(p) == JoinPath(q) ==> p == q
  {
    TokenizeJoinPath(p);
    TokenizeJoinPath(q);
  }

  /** The join of a valid non-empty path ends in its last segment's last
      character, so it is neither empty nor ends with `/`. */
  lemma {:induction false} JoinPathEnd(p: Path)
    requires ValidPath(p) && p != []
    ensures JoinPath(p) != ""
    ensures JoinPath(p)[|JoinPath(p)| - 1] == p[|p| - 1][|p[|p| - 1]| - 1]
    decreases |p|
  {
    if |p| > 1 {
      JoinPathEnd(p[1..]);
    }
  }

  /** Appending one segment to a path appends `/segment` to its join. */
  lemma {:induction false} JoinPathSnoc(p: Path, w: string)
    ensures JoinPath(p + [w]) == if p == [] then w else JoinPath(p) + "/" + w
    decreases |p|
  {
    if |p| == 1 {
      assert (p + [w])[1..] == [w];
      assert JoinPath(p + [w]) == p[0] + "/" + JoinPath([w]);
    } else if |p| > 1 {
      assert (p + [w])[1..] == p[1..] + [w];
      JoinPathSnoc(p[1..], w);
    }
  }

  /** Python's two-argument `os.path.join(a, b)` (posixpath): an absolute `b`
      replaces `a`; otherwise `b` is appended, with a `/` in between unless
      `a` is empty or already ends with one. */
  function PathJoin(a: string, b: string): string
  {
    if |b| > 0 && b[0] == '/' then b
    else if a == "" || a[|a| - 1] == '/' then a + b
    else a + "/" + b
  }

  /** What `os.path.join(a, b)` promises: an absolute `b` is the result;
      otherwise the result starts with `a`, ends with `b`, and between them
      holds at most one added character, a `/`, which is added exactly when
      `a` is non-empty and does not already end with one. */
  lemma PathJoinAppends(a: string, b: string)
    ensures |b| > 0 && b[0] == '/' ==> PathJoin(a, b) == b
    ensures var r := PathJoin(a, b);
            !(|b| > 0 && b[0] == '/') ==>
              && a <= r && |a| + |b| <= |r| <= |a| + |b| + 1 && r[|r| - |b|..] == b
              && (|r| == |a| + |b| + 1 <==> a != "" && a[|a| - 1] != '/')
              && (|r| == |a| + |b| + 1 ==> r[|a|] == '/')
  {
  }

  /** Joining a valid segment onto the join of a valid path is the join of
      the extended path: the path strings reportRecursiveChanges builds are
      exactly the `/`-joins of the token routes. */
  lemma PathJoinSegment(p: Path, w: string)
    requires ValidPath(p) && ValidSegment(w)
    ensures PathJoin(JoinPath(p), w) == JoinPath(p + [w])
  {
    JoinPathSnoc(p, w);
    if p != [] {
      JoinPathEnd(p);
      assert p[|p| - 1] in p;
    }
  }

  /** unox.py:207 `os.path.join(fspath, "")`: the replica root with a trailing
      slash added unless it already has one (an empty root stays empty). */
  function NormalizeRoot(fspath: string): (root: string)
    ensures fspath <= root && |root| <= |fspath| + 1
    ensures root == "" <==> fspath == ""
    ensures root != "" ==> root[|root| - 1] == '/'
    ensures fspath != "" && fspath[|fspath| - 1] == '/' ==> root == fspath
    ensures fspath != "" && fspath[|fspath| - 1] != '/' ==> root == fspath + "/"
  {
    PathJoin(fspath, "")
  }

  /** Normalising a root twice changes nothing further. */
  lemma NormalizeRootIdempotent(fspath: string)
    ensures NormalizeRoot(NormalizeRoot(fspath)) == NormalizeRoot(fspath)
  {
  }

  /** Handler.dispatch (unox.py:187-190): an event path is kept only when it
      starts with the handler's root; the rest of it is then tokenised. */
  function LocalTokens(root: string, path: string): (r: Option<Path>)
    ensures r.Some? ==> ValidPath(r.value)
  {
    if root <= path then Some(Tokenize(path[|root|..])) else None
  }

  /** Every path under the root comes back as its own tokens, and every path
      that does not start with the root is dropped. */
  lemma LocalTokensExact(root: string, p: Path, path: string)
    requires ValidPath(p)
    ensures LocalTokens(root, root + JoinPath(p)) == Some(p)
    ensures !(root <= path) ==> LocalTokens(root, path) == None
  {
    var full := root + JoinPath(p);
    assert full[|root|..] == JoinPath(p);
    TokenizeJoinPath(p);
  }

  /** The root itself (with its trailing slash) yields the empty token path;
      the root spelled without its trailing slash does not start with the
      root and is dropped. */
  lemma {:induction false} LocalTokensAtRoot(fspath: string)
    requires fspath != ""
    ensures LocalTokens(NormalizeRoot(fspath), NormalizeRoot(fspath)) == Some([])
    ensures var root := NormalizeRoot(fspath);
            LocalTokens(root, root[..|root| - 1]) == None
  {
    var root := NormalizeRoot(fspath);
    assert root[|root|..] == "";
    assert Split("", '/') == [""];
  }
}

=== FILE: session.dfy ===
/**
  The unox session (`main` and `startReplicaMon`) as a pure step function.
  A state holds the registered replicas with their normalised roots, the
  per-replica trigger trees, the pending-wait set and the debug flag; an
  input is a decoded command, the end of the input stream, or one file
  event delivered by a replica's watch. A step returns the next state and
  the lines written; the process has ended once the phase is `Exited`.
  File events are atomic steps between commands.
 */
module Session {
  import opened Common
  import opened Paths
  import opened TriggerTree
  import opened Codec

  /** The protocol version unox announces and expects. */
  const Version: string := "1"

  const LinkMessage: string :=
    "link following is not supported by unison-watchdog, please disable this option (-links)"

  /** Where the session is: awaiting the client's VERSION, in the main command
      loop, in the sub-loop of a START, or ended with an exit status. */
  datatype Phase = Handshake | Main | Starting | Exited(status: int)

  datatype State = State(
    phase: Phase,
    replicas: map<string, string>,
    triggered: map<string, Node>,
    pending: set<string>,
    debug: bool)

  datatype Input =
    | Command(cmd: string, args: seq<string>)
    | EndOfInput
    | FsEvent(replica: string, path: string)

  /** The watch backend: the message of the exception `observer.schedule`
      raises for a root, or `None` when the watch is set up. */
  datatype Env = Env(scheduleError: string -> Option<string>)

  datatype Outcome = Outcome(next: State, out: seq<Line>)

  predicate Running(s: State) {
    !s.phase.Exited?
  }

  /** A decoded line, or the end of the input when recvCmd sees no newline. */
  function ReceiveInput(line: string, unquote: string -> string): (r: Input)
    ensures r.EndOfInput? <==> line == "" || line[|line| - 1] != '\n'
  {
    match Receive(line, unquote)
    case None => EndOfInput
    case Some(l) => Command(l.cmd, l.args)
  }

  /** The session as main starts it: it announces its version (unox.py:245)
      and waits for the client's. */
  function Init(debug: bool): Outcome
  {
    Outcome(State(Handshake, map[], map[], {}, debug), [Line("VERSION", [Version])])
  }

  /** sendError: the `ERROR` line and exit status 1. */
  function Fatal(s: State, msg: string): Outcome
  {
    Outcome(s.(phase := Exited(1)), [Line("ERROR", [msg])])
  }

  /** An argument list that does not unpack raises in main: the process ends
      with status 1 and writes nothing. */
  function Crash(s: State): Outcome
  {
    Outcome(s.(phase := Exited(1)), [])
  }

  /** What `sendCmd("CHANGES", replica)` at unox.py:278 writes: the replica
      string is iterated, so each character is an argument of its own. */
  function Characters(r: string): (args: seq<string>)
    ensures |args| == |r|
    ensures forall i :: 0 <= i < |args| ==> |args[i]| == 1 && args[i][0] == r[i]
  {
    seq(|r|, i requires 0 <= i < |r| => [r[i]])
  }

  /** reportRecursiveChanges from the empty prefix: one RECURSIVE line per
      drained path. */
  ghost function Report(n: Node): seq<Line>
  {
    var ps := DrainAt("", n);
    seq(|ps|, i requires 0 <= i < |ps| => Line("RECURSIVE", [ps[i]]))
  }

  /** One step of the session. A running session either keeps running or
      exits with status 0 (end of input) or 1 (an error); the debug flag is
      never cleared; an ended session stays as it is. */
  ghost function Step(s: State, input: Input, env: Env): (o: Outcome)
    ensures !Running(s) ==> o == Outcome(s, [])
    ensures o.next.phase.Exited? ==> o.next.phase.status == 0 || o.next.phase.status == 1 || o.next == s
    ensures Running(s) && o.next.phase == Exited(0) <==> Running(s) && input.EndOfInput?
    ensures s.debug ==> o.next.debug
  {
    if s.phase.Exited? then Outcome(s, [])
    else match input
      case EndOfInput => Outcome(s.(phase := Exited(0)), [])
      case FsEvent(replica, path) => OnEvent(s, replica, path)
      case Command(cmd, args) =>
        if s.phase == Handshake then OnVersion(s, cmd, args)
        else if s.phase == Starting then OnStartCommand(s, cmd)
        else OnCommand(s, cmd, args, env)
  }

  /** The handshake reply (unox.py:246-251): anything but VERSION is fatal; a
      version other than "1" is only warned about. */
  function OnVersion(s: State, cmd: string, args: seq<string>): (o: Outcome)
    ensures o.next.phase == Main <==> cmd == "VERSION" && |args| == 1
    ensures o.next.phase != Main ==> o.next.phase == Exited(1)
    ensures o.next.(phase := s.phase) == s
  {
    if cmd != "VERSION" then Fatal(s, "unexpected version cmd: " + cmd)
    else if |args| != 1 then Crash(s)
    else Outcome(s.(phase := Main), [])
  }

  /** The sub-loop of startReplicaMon (unox.py:222-231). */
  function OnStartCommand(s: State, cmd: string): (o: Outcome)
    ensures o.next.(phase := s.phase) == s && |o.out| <= 1
    ensures o.out == [Line("OK", [])] <==> cmd == "DIR"
    ensures o.out == [] <==> cmd == "DONE"
    ensures cmd == "DONE" ==> o.next.phase == Main
  {
    if cmd == "DIR" then Outcome(s, [Line("OK", [])])
    else if cmd == "LINK" then Fatal(s, LinkMessage)
    else if cmd == "DONE" then Outcome(s.(phase := Main), [])
    else Fatal(s, "unexpected cmd in replica start: " + cmd)
  }

  /** One command of main's loop (unox.py:255-307); every command but WAIT
      first empties the pending-wait set. */
  ghost function OnCommand(s: State, cmd: string, args: seq<string>, env: Env): (o: Outcome)
    ensures cmd != "WAIT" ==> o.next.pending == {}
    ensures cmd != "START" && cmd != "RESET" ==> o.next.replicas == s.replicas
    ensures cmd != "CHANGES" && cmd != "RESET" ==> o.next.triggered == s.triggered
  {
    var s' := if cmd != "WAIT" then s.(pending := {}) else s;
    if cmd == "DEBUG" then Outcome(s'.(debug := true), [])
    else if cmd == "START" then
      if |args| < 2 || |args| > 3 then Crash(s') else OnStart(s', args[0], args[1], env)
    else if cmd == "WAIT" then
      if |args| != 1 then Crash(s') else OnWait(s', args[0])
    else if cmd == "CHANGES" then
      if |args| != 1 then Crash(s') else OnChanges(s', args[0])
    else if cmd == "RESET" then
      if |args| != 1 then Crash(s') else OnReset(s', args[0])
    else Fatal(s', "unexpected root cmd: " + cmd)
  }

  /** startReplicaMon up to its sub-loop (unox.py:203-221): a new replica gets
      its normalised root and a watch; a known one is left as it is. */
  function OnStart(s: State, replica: string, fspath: string, env: Env): (o: Outcome)
    ensures o.next.triggered == s.triggered && o.next.pending == s.pending
    ensures o.next.phase == Starting || o.next.phase == Exited(1)
    ensures o.next.phase == Starting ==>
              o.out == [Line("OK", [])] && replica in o.next.replicas &&
              o.next.replicas.Keys == s.replicas.Keys + {replica} &&
              forall other :: other in s.replicas ==> o.next.replicas[other] == s.replicas[other]
  {
    if replica in s.replicas then Outcome(s.(phase := Starting), [Line("OK", [])])
    else
      var root := NormalizeRoot(fspath);
      match env.scheduleError(root)
      case Some(msg) => Fatal(s, msg)
      case None => Outcome(s.(phase := Starting, replicas := s.replicas[replica := root]), [Line("OK", [])])
  }

  /** WAIT (unox.py:271-282). */
  function OnWait(s: State, replica: string): (o: Outcome)
    ensures o.next.replicas == s.replicas && o.next.triggered == s.triggered && |o.out| <= 1
    ensures o.out == [] <==> replica in s.replicas && replica !in s.triggered
    ensures o.out == [] ==> o.next.pending == s.pending + {replica}
    ensures o.out != [] ==> o.next.pending == {} || o.next.phase == Exited(1)
  {
    if replica !in s.replicas then Fatal(s, "unknown replica: " + replica)
    else if replica in s.triggered then Outcome(s.(pending := {}), [Line("CHANGES", Characters(replica))])
    else Outcome(s.(pending := s.pending + {replica}), [])
  }

  /** CHANGES (unox.py:283-292). */
  ghost function OnChanges(s: State, replica: string): (o: Outcome)
    ensures o.next.replicas == s.replicas && o.next.pending == s.pending && o.out != []
    ensures replica in s.replicas ==>
              o.next.phase == s.phase && o.out[|o.out| - 1] == Line("DONE", []) &&
              o.next.triggered == s.triggered - {replica}
    ensures replica !in s.replicas ==> o.next.phase == Exited(1)
  {
    if replica !in s.replicas then Fatal(s, "unknown replica: " + replica)
    else if replica in s.triggered then
      Outcome(s.(triggered := s.triggered - {replica}), Report(s.triggered[replica]) + [Line("DONE", [])])
    else Outcome(s, [Line("DONE", [])])
  }

  /** RESET (unox.py:293-305): an unknown replica is only warned about. */
  function OnReset(s: State, replica: string): (o: Outcome)
    ensures o.out == [] && o.next.phase == s.phase && o.next.pending == s.pending
    ensures replica !in s.replicas ==> o.next == s
    ensures replica in s.replicas ==>
              o.next.replicas.Keys == s.replicas.Keys - {replica} &&
              o.next.triggered.Keys == s.triggered.Keys - {replica}
  {
    if replica !in s.replicas then Outcome(s, [])
    else Outcome(s.(replicas := s.replicas - {replica}, triggered := s.triggered - {replica}), [])
  }

  /** A file event from a replica's watch: Handler.dispatch (unox.py:184-192)
      followed by triggerReplica (unox.py:146-175), whose push notification
      (unox.py:148-151) names the replica and empties the whole pending set. */
  function OnEvent(s: State, replica: string, path: string): (o: Outcome)
    ensures o.next.replicas == s.replicas && o.next.phase == s.phase && o.next.debug == s.debug
    ensures o.out == [] || o.out == [Line("CHANGES", [replica])]
    ensures o.out != [] <==> replica in s.pending && replica in s.replicas &&
                             s.replicas[replica] <= path
    ensures o.out != [] ==> o.next.pending == {}
    ensures o.out == [] ==> o.next.pending == s.pending
  {
    if replica !in s.replicas then Outcome(s, [])
    else match LocalTokens(s.replicas[replica], path)
      case None => Outcome(s, [])
      case Some(toks) =>
        var push := replica in s.pending;
        Outcome(s.(pending := if push then {} else s.pending,
                   triggered := Record(s.triggered, replica, toks)),
                if push then [Line("CHANGES", [replica])] else [])
  }

  /* ---------------------------------------------------------------------
     The session invariant.
     --------------------------------------------------------------------- */

  /** Every tree is well-formed and belongs to a registered replica; every
      pending replica is registered and has no tree (a tree would have been
      reported at once); the START sub-loop never has anything pending. */
  predicate Inv(s: State) {
    && AllWf(s.triggered)
    && s.triggered.Keys <= s.replicas.Keys
    && s.pending <= s.replicas.Keys
    && s.pending !! s.triggered.Keys
    && (s.phase.Starting? ==> s.pending == {})
  }

  lemma InitInv(debug: bool)
    ensures Init(debug).out == [Line("VERSION", ["1"])]
    ensures Inv(Init(debug).next) && Init(debug).next.phase == Handshake
  {
  }

  /** Every step keeps the invariant. */
  lemma StepInv(s: State, input: Input, env: Env)
    requires Inv(s)
    ensures Inv(Step(s, input, env).next)
  {
    if !Running(s) || input.EndOfInput? {
    } else if input.FsEvent? {
      OnEventInv(s, input.replica, input.path);
    } else if s.phase == Handshake {
      OnVersionInv(s, input.cmd, input.args);
    } else if s.phase == Starting {
      OnStartCommandInv(s, input.cmd);
    } else {
      OnCommandInv(s, input.cmd, input.args, env);
    }
  }

  lemma OnVersionInv(s: State, cmd: string, args: seq<string>)
    requires Inv(s) && s.phase == Handshake
    ensures Inv(OnVersion(s, cmd, args).next)
  {
  }

  lemma OnStartCommandInv(s: State, cmd: string)
    requires Inv(s) && s.phase == Starting
    ensures Inv(OnStartCommand(s, cmd).next)
  {
  }

  lemma OnEventInv(s: State, r: string, path: string)
    requires Inv(s)
    ensures Inv(OnEvent(s, r, path).next)
  {
    if r in s.replicas {
      match LocalTokens(s.replicas[r], path)
      case None =>
      case Some(toks) =>
        RecordWf(s.triggered, r, toks);
    }
  }

  lemma OnCommandInv(s: State, cmd: string, args: seq<string>, env: Env)
    requires Inv(s) && s.phase == Main
    ensures Inv(OnCommand(s, cmd, args, env).next)
  {
    var s' := if cmd != "WAIT" then s.(pending := {}) else s;
    assert Inv(s');
    if cmd == "START" && 2 <= |args| <= 3 {
      assert Inv(OnStart(s', args[0], args[1], env).next);
    } else if cmd == "WAIT" && |args| == 1 {
      assert Inv(OnWait(s', args[0]).next);
    } else if cmd == "CHANGES" && |args| == 1 {
      assert Inv(OnChanges(s', args[0]).next);
    } else if cmd == "RESET" && |args| == 1 {
      assert Inv(OnReset(s', args[0]).next);
    }
  }

  /* ---------------------------------------------------------------------
     Handshake, end of input and errors.
     --------------------------------------------------------------------- */

  lemma HandshakeWrongCommand(s: State, cmd: string, args: seq<string>, env: Env)
    requires s.phase == Handshake && cmd != "VERSION"
    ensures Step(s, Command(cmd, args), env) ==
            Outcome(s.(phase := Exited(1)), [Line("ERROR", ["unexpected version cmd: " + cmd])])
  {
  }

  /** Any single version number moves on to the main loop without output: a
      mismatch is only a warning. */
  lemma HandshakeAnyVersion(s: State, v: string, env: Env)
    requires s.phase == Handshake
    ensures Step(s, Command("VERSION", [v]), env) == Outcome(s.(phase := Main), [])
  {
  }

  /** A closed input ends a running session with status 0 and no output. */
  lemma EndOfInputExits(s: State, env: Env)
    requires Running(s)
    ensures Step(s, EndOfInput, env) == Outcome(s.(phase := Exited(0)), [])
  {
  }

  /** Once ended, nothing more happens. */
  lemma ExitedIsFinal(s: State, input: Input, env: Env)
    requires s.phase.Exited?
    ensures Step(s, input, env) == Outcome(s, [])
  {
  }

  /** An ERROR line is always the last thing written: the process exits with
      status 1 in the same step. */
  lemma ErrorIsFatal(s: State, input: Input, env: Env)
    ensures var o := Step(s, input, env);
            (exists i :: 0 <= i < |o.out| && o.out[i].cmd == "ERROR") ==>
              o.next.phase == Exited(1) && |o.out| == 1
  {
    if Running(s) && input.Command? && s.phase == Main {
      OnCommandErrorIsFatal(s, input.cmd, input.args, env);
    }
  }

  lemma OnCommandErrorIsFatal(s: State, cmd: string, args: seq<string>, env: Env)
    ensures var o := OnCommand(s, cmd, args, env);
            (exists i :: 0 <= i < |o.out| && o.out[i].cmd == "ERROR") ==>
              o.next.phase == Exited(1) && |o.out| == 1
  {
    var o := OnCommand(s, cmd, args, env);
    if cmd == "CHANGES" && |args| == 1 && args[0] in s.replicas && args[0] in s.triggered {
      var rep := Report(s.triggered[args[0]]);
      assert o.out == rep + [Line("DONE", [])];
      forall i | 0 <= i < |o.out|
        ensures o.out[i].cmd != "ERROR"
      {
        if i < |rep| {
          assert o.out[i] == rep[i];
        }
      }
    }
  }

  /* ---------------------------------------------------------------------
     The pending-wait set.
     --------------------------------------------------------------------- */

  /** Every command but WAIT empties the pending-wait set. */
  lemma NonWaitClearsPending(s: State, cmd: string, args: seq<string>, env: Env)
    requires s.phase == Main && cmd != "WAIT"
    ensures Step(s, Command(cmd, args), env).next.pending == {}
  {
  }

  /** WAIT on a replica with recorded changes answers at once, with the
      replica's characters as separate arguments, and empties the set. */
  lemma WaitWithChanges(s: State, r: string, env: Env)
    requires s.phase == Main && r in s.replicas && r in s.triggered
    ensures var o := Step(s, Command("WAIT", [r]), env);
            o.out == [Line("CHANGES", Characters(r))] && o.next.pending == {} &&
            o.next == s.(pending := {})
    ensures |r| != 1 ==> Characters(r) != [r]
  {
  }

  /** WAIT on a replica without changes only adds it to the set. */
  lemma WaitWithoutChanges(s: State, r: string, env: Env)
    requires s.phase == Main && r in s.replicas && r !in s.triggered
    ensures Step(s, Command("WAIT", [r]), env) == Outcome(s.(pending := s.pending + {r}), [])
  {
  }

  /** An event under the root of a pending replica writes exactly one
      CHANGES line naming it and empties the whole set; the change is
      recorded all the same. */
  lemma EventForPendingReplica(s: State, r: string, path: string, toks: Path, env: Env)
    requires Running(s) && r in s.replicas && r in s.pending
    requires LocalTokens(s.replicas[r], path) == Some(toks)
    ensures var o := Step(s, FsEvent(r, path), env);
            o.out == [Line("CHANGES", [r])] && o.next.pending == {} &&
            o.next.triggered == Record(s.triggered, r, toks) &&
            Covers(o.next.triggered[r], toks)
  {
  }

  /** An event for a replica that is not waited on writes nothing. */
  lemma EventForQuietReplica(s: State, r: string, path: string, toks: Path, env: Env)
    requires Running(s) && r in s.replicas && r !in s.pending
    requires LocalTokens(s.replicas[r], path) == Some(toks)
    ensures Step(s, FsEvent(r, path), env) ==
            Outcome(s.(triggered := Record(s.triggered, r, toks)), [])
  {
  }

  /** An event outside the replica's root changes nothing. */
  lemma EventOutsideRoot(s: State, r: string, path: string, env: Env)
    requires r in s.replicas && !(s.replicas[r] <= path)
    ensures Step(s, FsEvent(r, path), env) == Outcome(s, [])
  {
  }

  /* ---------------------------------------------------------------------
     CHANGES.
     --------------------------------------------------------------------- */

  /** CHANGES on a replica with a tree reports every dirty node once, as the
      `/`-join of its route, then DONE, and drops the tree. */
  lemma ChangesReportsTree(s: State, r: string, p: Path, env: Env)
    requires Inv(s) && s.phase == Main && r in s.replicas && r in s.triggered
    requires ValidPath(p)
    ensures var o := Step(s, Command("CHANGES", [r]), env);
            var n := s.triggered[r];
            && o.next == s.(pending := {}, triggered := s.triggered - {r})
            && |o.out| >= 2
            && o.out[|o.out| - 1] == Line("DONE", [])
            && (forall i :: 0 <= i < |o.out| - 1 ==> o.out[i].cmd == "RECURSIVE" && |o.out[i].args| == 1)
            && Distinct(o.out)
            && (Line("RECURSIVE", [JoinPath(p)]) in o.out <==> DirtyAt(n, p))
            && |o.out| == |Drain(n)| + 1
            && (forall i :: 0 <= i < |o.out| - 1 ==>
                  exists q :: DirtyAt(n, q) && o.out[i] == Line("RECURSIVE", [JoinPath(q)]))
  {
    var n := s.triggered[r];
    var o := Step(s, Command("CHANGES", [r]), env);
    var rep := Report(n);
    assert o.out == rep + [Line("DONE", [])];
    assert o.next == s.(pending := {}, triggered := s.triggered - {r});
    ReportLines(n, p);
    forall i | 0 <= i < |o.out| - 1
      ensures exists q :: DirtyAt(n, q) && o.out[i] == Line("RECURSIVE", [JoinPath(q)])
    {
      assert DirtyAt(n, Drain(n)[i]) && o.out[i] == Line("RECURSIVE", [JoinPath(Drain(n)[i])]);
    }
    forall i, j | 0 <= i < j < |o.out|
      ensures o.out[i] != o.out[j]
    {
      if j < |rep| {
        assert rep[i] != rep[j];
      } else {
        assert o.out[i] == rep[i];
      }
    }
    assert Line("RECURSIVE", [JoinPath(p)]) in o.out <==> Line("RECURSIVE", [JoinPath(p)]) in rep;
    assert |o.out| >= 2;
    assert o.out[|o.out| - 1] == Line("DONE", []);
    assert (forall i :: 0 <= i < |o.out| - 1 ==> o.out[i].cmd == "RECURSIVE" && |o.out[i].args| == 1);
    assert Distinct(o.out);
    assert |o.out| == |Drain(n)| + 1;
  }

  /** The RECURSIVE lines for a well-formed tree: one per drained route, each
      naming the `/`-join of a route to a dirty node, none twice, at least
      one, and a valid route's line among them exactly when it is dirty. */
  lemma ReportLines(n: Node, p: Path)
    requires Wf(n) && ValidPath(p)
    ensures |Report(n)| == |Drain(n)| >= 1
    ensures forall i :: 0 <= i < |Report(n)| ==>
              DirtyAt(n, Drain(n)[i]) && Report(n)[i] == Line("RECURSIVE", [JoinPath(Drain(n)[i])])
    ensures Distinct(Report(n))
    ensures Line("RECURSIVE", [JoinPath(p)]) in Report(n) <==> DirtyAt(n, p)
  {
    var ps := DrainAt("", n);
    var rep := Report(n);
    ReportedStrings(n, p);
    ReportedRoutes(n);
    forall i, j | 0 <= i < j < |rep|
      ensures rep[i] != rep[j]
    {
      assert rep[i].args[0] == ps[i] && rep[j].args[0] == ps[j];
    }
    if Line("RECURSIVE", [JoinPath(p)]) in rep {
      var i :| 0 <= i < |rep| && rep[i] == Line("RECURSIVE", [JoinPath(p)]);
      assert ps[i] == JoinPath(p);
    }
    if DirtyAt(n, p) {
      var i :| 0 <= i < |ps| && ps[i] == JoinPath(p);
      assert rep[i] == Line("RECURSIVE", [JoinPath(p)]);
    }
  }

  /** A dirty root is reported as the single empty path. */
  lemma ChangesDirtyRoot(s: State, r: string, env: Env)
    requires s.phase == Main && r in s.replicas && r in s.triggered && s.triggered[r] == Dirty
    ensures Step(s, Command("CHANGES", [r]), env).out == [Line("RECURSIVE", [""]), Line("DONE", [])]
  {
    DirtyRootReport();
  }

  /** CHANGES always ends with DONE, and a second CHANGES with nothing in
      between writes DONE alone. */
  lemma ChangesTwice(s: State, r: string, env: Env)
    requires s.phase == Main && r in s.replicas
    ensures var o1 := Step(s, Command("CHANGES", [r]), env);
            var o2 := Step(o1.next, Command("CHANGES", [r]), env);
            && o1.out != [] && o1.out[|o1.out| - 1] == Line("DONE", [])
            && o2.out == [Line("DONE", [])]
  {
  }

  /** WAIT or CHANGES on an unregistered replica is fatal. */
  lemma UnknownReplicaFatal(s: State, cmd: string, r: string, env: Env)
    requires s.phase == Main && (cmd == "WAIT" || cmd == "CHANGES") && r !in s.replicas
    ensures var o := Step(s, Command(cmd, [r]), env);
            o.out == [Line("ERROR", ["unknown replica: " + r])] && o.next.phase == Exited(1)
  {
  }

  /* ---------------------------------------------------------------------
     RESET, START and the START sub-loop.
     --------------------------------------------------------------------- */

  /** RESET of an unknown replica only empties the pending set. */
  lemma ResetUnknown(s: State, r: string, env: Env)
    requires s.phase == Main && r !in s.replicas
    ensures Step(s, Command("RESET", [r]), env) == Outcome(s.(pending := {}), [])
  {
  }

  /** RESET of a known replica forgets its root and its tree and nothing else. */
  lemma ResetKnown(s: State, r: string, env: Env)
    requires s.phase == Main && r in s.replicas
    ensures Step(s, Command("RESET", [r]), env) ==
            Outcome(s.(pending := {}, replicas := s.replicas - {r}, triggered := s.triggered - {r}), [])
  {
  }

  /** START of a registered replica acknowledges without a new watch: the
      backend is not consulted and the registry is unchanged. */
  lemma StartRegistered(s: State, r: string, fspath: string, rest: seq<string>, env: Env, env': Env)
    requires s.phase == Main && r in s.replicas && |rest| <= 1
    ensures var o := Step(s, Command("START", [r, fspath] + rest), env);
            && o == Step(s, Command("START", [r, fspath] + rest), env')
            && o.out == [Line("OK", [])]
            && o.next == s.(phase := Starting, pending := {})
  {
  }

  /** START of a new replica watches its root with a trailing slash, or
      reports the backend's error and exits. */
  lemma StartNew(s: State, r: string, fspath: string, env: Env)
    requires s.phase == Main && r !in s.replicas
    ensures var o := Step(s, Command("START", [r, fspath]), env);
            var root := NormalizeRoot(fspath);
            match env.scheduleError(root)
            case None =>
              o == Outcome(s.(phase := Starting, pending := {}, replicas := s.replicas[r := root]), [Line("OK", [])])
            case Some(msg) =>
              o == Outcome(s.(phase := Exited(1), pending := {}), [Line("ERROR", [msg])])
  {
  }

  /** Argument lists main cannot unpack end the process without output. */
  lemma StartBadArity(s: State, args: seq<string>, env: Env)
    requires s.phase == Main && (|args| < 2 || |args| > 3)
    ensures Step(s, Command("START", args), env) == Outcome(s.(pending := {}, phase := Exited(1)), [])
  {
  }

  /** DEBUG sets the flag; applying it again changes nothing more. */
  lemma DebugSets(s: State, args: seq<string>, env: Env)
    requires s.phase == Main
    ensures var o := Step(s, Command("DEBUG", args), env);
            o == Outcome(s.(pending := {}, debug := true), []) &&
            Step(o.next, Command("DEBUG", args), env) == Outcome(o.next, [])
  {
  }

  /** In the sub-loop DIR is acknowledged, DONE returns to the main loop
      silently, and LINK or anything else is fatal. */
  lemma StartLoop(s: State, cmd: string, args: seq<string>, env: Env)
    requires s.phase == Starting
    ensures var o := Step(s, Command(cmd, args), env);
            if cmd == "DIR" then o == Outcome(s, [Line("OK", [])])
            else if cmd == "DONE" then o == Outcome(s.(phase := Main), [])
            else if cmd == "LINK" then o == Outcome(s.(phase := Exited(1)), [Line("ERROR", [LinkMessage])])
            else o == Outcome(s.(phase := Exited(1)), [Line("ERROR", ["unexpected cmd in replica start: " + cmd])])
  {
  }

  /* ---------------------------------------------------------------------
     A replica watched at `/tmp/a`: the root without its slash is not under
     the root, the root with its slash is the whole replica.
     --------------------------------------------------------------------- */

  lemma RootEventScenario(s: State, r: string, env: Env)
    requires Inv(s) && s.phase == Main && r !in s.replicas
    requires env.scheduleError("/tmp/a/") == None
    ensures var s1 := Step(Step(s, Command("START", [r, "/tmp/a"]), env).next, Command("DONE", []), env).next;
            && r in s1.replicas && s1.replicas[r] == "/tmp/a/"
            && Step(s1, FsEvent(r, "/tmp/a"), env) == Outcome(s1, [])
            && var s2 := Step(s1, FsEvent(r, "/tmp/a/"), env).next;
               Step(s2, Command("CHANGES", [r]), env).out == [Line("RECURSIVE", [""]), Line("DONE", [])]
  {
    assert NormalizeRoot("/tmp/a") == "/tmp/a/";
    var s1 := Step(Step(s, Command("START", [r, "/tmp/a"]), env).next, Command("DONE", []), env).next;
    LocalTokensAtRoot("/tmp/a");
    var s2 := Step(s1, FsEvent(r, "/tmp/a/"), env).next;
    assert s2.triggered[r] == Dirty;
    DirtyRootReport();
  }
}

=== FILE: trigger.dfy ===
/**
  The per-replica change-trigger tree of unox (`triggered_reps`): a node is
  either `Dirty` (the whole subtree changed; Python's `True`) or a `Branch`
  mapping a path segment to the child below it (a Python dict). Recording a
  path collapses into the nearest dirty ancestor; draining walks the tree and
  reports one relative path per dirty node.
 */
module TriggerTree {
  import opened Common
  import opened Paths

  datatype Node = Dirty | Branch(children: map<string, Node>)

  /** The fresh `{}` a first non-root event for a replica starts from. */
  const Empty: Node := Branch(map[])

  /** The child under `k`, or a fresh empty branch where there is none. */
  function Child(cs: map<string, Node>, k: string): Node
  {
    if k in cs then cs[k] else Empty
  }

  /** The node reached by walking `q` from `n`, if the walk stays in the tree. */
  function At(n: Node, q: Path): Option<Node>
    decreases q
  {
    if q == [] then Some(n)
    else match n
      case Dirty => None
      case Branch(cs) => if q[0] in cs then At(cs[q[0]], q[1..]) else None
  }

  /** A dirty node sits exactly at `q`. */
  predicate DirtyAt(n: Node, q: Path) {
    At(n, q) == Some(Dirty)
  }

  /** Some dirty node lies on the route to `q` (at `q` or above it): a change
      at `q` is already recorded. */
  predicate Covers(n: Node, q: Path)
    decreases q
  {
    match n
    case Dirty => true
    case Branch(cs) => q != [] && q[0] in cs && Covers(cs[q[0]], q[1..])
  }

  /** The shape recording keeps: every branch has at least one child, so
      every leaf is dirty, and every key is a valid path segment. */
  predicate Wf(n: Node) {
    match n
    case Dirty => true
    case Branch(cs) => cs != map[] && forall k <- cs :: ValidSegment(k) && Wf(cs[k])
  }

  /** triggerReplica's walk (unox.py:153-175) below a replica's current node:
      the empty path makes the node dirty whatever it held; a dirty node
      absorbs everything below it; otherwise missing branches are created
      along the route and the last segment is set dirty, replacing whatever
      branch sat there. */
  function Insert(n: Node, toks: Path): (r: Node)
    ensures Covers(r, toks)
    decreases toks
  {
    if toks == [] then Dirty
    else match n
      case Dirty => Dirty
      case Branch(cs) => Branch(cs[toks[0] := Insert(Child(cs, toks[0]), toks[1..])])
  }

  /** triggerReplica's update of `triggered_reps` (unox.py:152-175): a replica
      without a tree starts from `{}`; only that replica's entry changes. */
  function Record(triggered: map<string, Node>, replica: string, toks: Path): (r: map<string, Node>)
    ensures r.Keys == triggered.Keys + {replica}
    ensures forall other :: other in triggered && other != replica ==> r[other] == triggered[other]
    ensures Covers(r[replica], toks)
  {
    var cur := if replica in triggered then triggered[replica] else Empty;
    triggered[replica := Insert(cur, toks)]
  }

  /** Recording the empty path leaves the replica's tree dirty, whatever it
      held before. */
  lemma RecordRoot(triggered: map<string, Node>, replica: string)
    ensures Record(triggered, replica, [])[replica] == Dirty
  {
  }

  /** Once a dirty node lies on the route to `toks` (a dirty root included),
      recording `toks` changes nothing. */
  lemma {:induction false} InsertCovered(n: Node, toks: Path)
    requires Covers(n, toks)
    ensures Insert(n, toks) == n
    decreases toks
  {
    match n
    case Dirty =>
    case Branch(cs) =>
      InsertCovered(cs[toks[0]], toks[1..]);
      assert cs[toks[0] := cs[toks[0]]] == cs;
  }

  lemma RecordCovered(triggered: map<string, Node>, replica: string, toks: Path)
    requires replica in triggered && Covers(triggered[replica], toks)
    ensures Record(triggered, replica, toks) == triggered
  {
    InsertCovered(triggered[replica], toks);
  }

  /** What a recorded tree covers is exactly what it covered before plus
      every path at or below `toks`. */
  lemma {:induction false} InsertCovers(n: Node, toks: Path, q: Path)
    ensures Covers(Insert(n, toks), q) <==> Covers(n, q) || toks <= q
    decreases toks
  {
    if toks != [] && n.Branch? && q != [] && q[0] == toks[0] {
      InsertCovers(Child(n.children, toks[0]), toks[1..], q[1..]);
      assert toks <= q <==> toks[1..] <= q[1..];
      if toks[0] !in n.children {
        NothingCoveredByEmpty(q[1..]);
      }
    }
  }

  lemma NothingCoveredByEmpty(q: Path)
    ensures !Covers(Empty, q)
  {
  }

  /** Subtrees off the route to `toks` are unchanged by recording it. */
  lemma {:induction false} InsertOffRoute(n: Node, toks: Path, q: Path)
    requires !(toks <= q) && !(q <= toks)
    ensures At(Insert(n, toks), q) == At(n, q)
    decreases toks
  {
    match n
    case Dirty =>
    case Branch(cs) =>
      if q[0] == toks[0] {
        InsertOffRoute(Child(cs, toks[0]), toks[1..], q[1..]);
      }
  }

  /** The keys of the branch a walk reaches, none where it reaches no branch. */
  function KeysAt(n: Node, q: Path): set<string>
  {
    match At(n, q)
    case Some(Branch(cs)) => cs.Keys
    case _ => {}
  }

  /** Recording an uncovered `toks` leaves a branch at every strict prefix of
      the route that holds the old keys there plus the next segment, and a
      dirty node at `toks` itself: branches are only added along the route. */
  lemma {:induction false} InsertAlongRoute(n: Node, toks: Path, q: Path)
    requires !Covers(n, toks)
    requires q <= toks
    ensures q < toks ==> At(Insert(n, toks), q).Some? && At(Insert(n, toks), q).value.Branch?
    ensures q < toks ==> KeysAt(Insert(n, toks), q) == KeysAt(n, q) + {toks[|q|]}
    ensures q == toks ==> DirtyAt(Insert(n, toks), toks)
    decreases toks
  {
    if toks != [] {
      var cs := n.children;
      var k := toks[0];
      if q != [] {
        if k !in cs {
          NothingCoveredByEmpty(toks[1..]);
          EmptyHasNoKeys(q[1..]);
        }
        InsertAlongRoute(Child(cs, k), toks[1..], q[1..]);
      }
    }
  }

  lemma EmptyHasNoKeys(q: Path)
    ensures KeysAt(Empty, q) == {}
  {
  }

  /** Recording a valid path into a well-formed tree, or into the fresh `{}`,
      gives a well-formed tree. */
  lemma {:induction false} InsertWf(n: Node, toks: Path)
    requires Wf(n) || n == Empty
    requires ValidPath(toks)
    ensures Wf(Insert(n, toks))
    decreases toks
  {
    if toks != [] && n.Branch? {
      var cs := n.children;
      InsertWf(Child(cs, toks[0]), toks[1..]);
      var cs' := cs[toks[0] := Insert(Child(cs, toks[0]), toks[1..])];
      assert toks[0] in cs';
      forall k | k in cs'
        ensures ValidSegment(k) && Wf(cs'[k])
      {
        if k != toks[0] {
          assert k in cs;
        }
      }
    }
  }

  /** Every replica's tree is well-formed. */
  predicate AllWf(triggered: map<string, Node>) {
    forall r <- triggered :: Wf(triggered[r])
  }

  lemma RecordWf(triggered: map<string, Node>, replica: string, toks: Path)
    requires AllWf(triggered) && ValidPath(toks)
    ensures AllWf(Record(triggered, replica, toks))
  {
    InsertWf(if replica in triggered then triggered[replica] else Empty, toks);
  }

  /** Recording a list of paths in order, starting from `n`. */
  function RecordAll(n: Node, paths: seq<Path>): Node
    decreases |paths|
  {
    if paths == [] then n else RecordAll(Insert(n, paths[0]), paths[1..])
  }

  /** A tree built by recording `paths` from nothing covers exactly the paths
      at or below one of the recorded ones: no change is lost and none is
      invented. */
  lemma {:induction false} RecordAllCovers(n: Node, paths: seq<Path>, q: Path)
    ensures Covers(RecordAll(n, paths), q) <==>
            Covers(n, q) || exists i :: 0 <= i < |paths| && paths[i] <= q
    decreases |paths|
  {
    if paths != [] {
      RecordAllCovers(Insert(n, paths[0]), paths[1..], q);
      InsertCovers(n, paths[0], q);
      if exists i :: 0 <= i < |paths[1..]| && paths[1..][i] <= q {
        var i :| 0 <= i < |paths[1..]| && paths[1..][i] <= q;
        assert paths[i + 1] <= q;
      }
      if exists i :: 0 <= i < |paths| && paths[i] <= q {
        var i :| 0 <= i < |paths| && paths[i] <= q;
        if i > 0 {
          assert paths[1..][i - 1] <= q;
        }
      }
    }
  }

  lemma RecordAllFromNothing(paths: seq<Path>, q: Path)
    ensures Covers(RecordAll(Empty, paths), q) <==> exists i :: 0 <= i < |paths| && paths[i] <= q
  {
    RecordAllCovers(Empty, paths, q);
    NothingCoveredByEmpty(q);
  }

  /* ---------------------------------------------------------------------
     Draining. Python walks a dict in insertion order; the model walks the
     keys in an order it does not specify, so the results are ghost and the
     properties below hold for every order.
     --------------------------------------------------------------------- */

  /** Some enumeration of a finite set of keys, each exactly once. */
  ghost function Enumerate(keys: set<string>): (r: seq<string>)
    ensures forall k :: k in r <==> k in keys
    ensures Distinct(r)
    decreases keys
  {
    if keys == {} then []
    else
      var k :| k in keys;
      [k] + Enumerate(keys - {k})
  }

  /** `k` prepended to every path of `ps`. */
  function Under(k: string, ps: seq<Path>): (r: seq<Path>)
  {
    seq(|ps|, i requires 0 <= i < |ps| => [k] + ps[i])
  }

  /** The token routes to the dirty nodes of `n`, depth-first. */
  ghost function Drain(n: Node): seq<Path>
    decreases n, 1
  {
    match n
    case Dirty => [[]]
    case Branch(cs) => DrainChildren(n, Enumerate(cs.Keys))
  }

  ghost function DrainChildren(n: Node, ks: seq<string>): seq<Path>
    requires n.Branch? && forall i :: 0 <= i < |ks| ==> ks[i] in n.children
    decreases n, 0, |ks|
  {
    if ks == [] then []
    else Under(ks[0], Drain(n.children[ks[0]])) + DrainChildren(n, ks[1..])
  }

  /** reportRecursiveChanges (unox.py:234-239): one `RECURSIVE` path per dirty
      node, built with `os.path.join` from the starting prefix. */
  ghost function DrainAt(prefix: string, n: Node): (r: seq<string>)
    ensures |r| == |Drain(n)|
    decreases n, 1
  {
    match n
    case Dirty => [prefix]
    case Branch(cs) => DrainChildrenAt(prefix, n, Enumerate(cs.Keys))
  }

  ghost function DrainChildrenAt(prefix: string, n: Node, ks: seq<string>): (r: seq<string>)
    requires n.Branch? && forall i :: 0 <= i < |ks| ==> ks[i] in n.children
    ensures |r| == |DrainChildren(n, ks)|
    decreases n, 0, |ks|
  {
    if ks == [] then []
    else DrainAt(PathJoin(prefix, ks[0]), n.children[ks[0]]) + DrainChildrenAt(prefix, n, ks[1..])
  }

  /** The drain lists a route exactly when a dirty node sits there. */
  lemma {:induction false} DrainMembers(n: Node, p: Path)
    ensures p in Drain(n) <==> DirtyAt(n, p)
    decreases n, 1
  {
    match n
    case Dirty =>
    case Branch(cs) =>
      var ks := Enumerate(cs.Keys);
      DrainChildrenMembers(n, ks, p);
  }

  lemma {:induction false} DrainChildrenMembers(n: Node, ks: seq<string>, p: Path)
    requires n.Branch? && forall i :: 0 <= i < |ks| ==> ks[i] in n.children
    ensures p in DrainChildren(n, ks) <==>
            p != [] && p[0] in ks && DirtyAt(n.children[p[0]], p[1..])
    decreases n, 0, |ks|
  {
    if ks != [] {
      var k := ks[0];
      var sub := Drain(n.children[k]);
      DrainChildrenMembers(n, ks[1..], p);
      if p != [] && p[0] == k {
        DrainMembers(n.children[k], p[1..]);
        if p[1..] in sub {
          var i :| 0 <= i < |sub| && sub[i] == p[1..];
          assert Under(k, sub)[i] == p;
        }
      }
      if p in Under(k, sub) {
        var i :| 0 <= i < |sub| && Under(k, sub)[i] == p;
        assert p[1..] == sub[i];
        DrainMembers(n.children[k], p[1..]);
      }
    }
  }

  /** Every route in `DrainChildren(n, ks)` starts with one of `ks`. */
  lemma DrainChildrenHeads(n: Node, ks: seq<string>, p: Path)
    requires n.Branch? && forall i :: 0 <= i < |ks| ==> ks[i] in n.children
    requires p in DrainChildren(n, ks)
    ensures p != [] && p[0] in ks
  {
    DrainChildrenMembers(n, ks, p);
  }

  /** No route is reported twice. */
  lemma {:induction false} DrainDistinct(n: Node)
    ensures Distinct(Drain(n))
    decreases n, 1
  {
    match n
    case Dirty =>
    case Branch(cs) =>
      DrainChildrenDistinct(n, Enumerate(cs.Keys));
  }

  lemma {:induction false} DrainChildrenDistinct(n: Node, ks: seq<string>)
    requires n.Branch? && forall i :: 0 <= i < |ks| ==> ks[i] in n.children
    requires Distinct(ks)
    ensures Distinct(DrainChildren(n, ks))
    decreases n, 0, |ks|
  {
    if ks != [] {
      var k := ks[0];
      var a := Under(k, Drain(n.children[k]));
      var b := DrainChildren(n, ks[1..]);
      DrainDistinct(n.children[k]);
      DrainChildrenDistinct(n, ks[1..]);
      forall i, j | 0 <= i < |a| && 0 <= j < |b|
        ensures a[i] != b[j]
      {
        DrainChildrenHeads(n, ks[1..], b[j]);
      }
      forall i, j | 0 <= i < j < |a|
        ensures a[i] != a[j]
      {
        assert a[i][1..] == Drain(n.children[k])[i];
        assert a[j][1..] == Drain(n.children[k])[j];
      }
      var ab := a + b;
      forall i, j | 0 <= i < j < |ab|
        ensures ab[i] != ab[j]
      {
        if j < |a| {
        } else if i >= |a| {
          assert ab[i] == b[i - |a|] && ab[j] == b[j - |a|];
        } else {
          assert ab[i] == a[i] && ab[j] == b[j - |a|];
        }
      }
    }
  }

  /** A well-formed tree drains to at least one route. */
  lemma {:induction false} DrainNonEmpty(n: Node)
    requires Wf(n)
    ensures |Drain(n)| >= 1
    decreases n
  {
    match n
    case Dirty =>
    case Branch(cs) =>
      var ks := Enumerate(cs.Keys);
      var k :| k in cs;
      assert ks != [];
      DrainNonEmpty(cs[ks[0]]);
  }

  /** Two dirty nodes never sit one above the other. */
  lemma {:induction false} DirtyAtAntichain(n: Node, p: Path, q: Path)
    requires DirtyAt(n, p) && DirtyAt(n, q) && p <= q
    ensures p == q
    decreases p
  {
    if p != [] {
      DirtyAtAntichain(n.children[p[0]], p[1..], q[1..]);
    }
  }

  /** Minimality: no reported route is a prefix of another one. */
  lemma DrainAntichain(n: Node, p: Path, q: Path)
    requires p in Drain(n) && q in Drain(n) && p <= q
    ensures p == q
  {
    DrainMembers(n, p);
    DrainMembers(n, q);
    DirtyAtAntichain(n, p, q);
  }

  /** `n` covers `q` exactly when a dirty node sits on some prefix of `q`. */
  lemma {:induction false} CoversDirtyPrefix(n: Node, q: Path)
    ensures Covers(n, q) <==> exists i :: 0 <= i <= |q| && DirtyAt(n, q[..i])
    decreases q
  {
    match n
    case Dirty =>
      assert DirtyAt(n, q[..0]);
    case Branch(cs) =>
      if q != [] && q[0] in cs {
        CoversDirtyPrefix(cs[q[0]], q[1..]);
        if exists i :: 0 <= i <= |q[1..]| && DirtyAt(cs[q[0]], q[1..][..i]) {
          var i :| 0 <= i <= |q[1..]| && DirtyAt(cs[q[0]], q[1..][..i]);
          assert q[..i + 1][1..] == q[1..][..i];
        }
        if exists i :: 0 <= i <= |q| && DirtyAt(n, q[..i]) {
          var i :| 0 <= i <= |q| && DirtyAt(n, q[..i]);
          assert i > 0;
          assert q[..i][1..] == q[1..][..i - 1];
        }
      } else {
        forall i | 0 <= i <= |q|
          ensures !DirtyAt(n, q[..i])
        {
          if i > 0 {
            assert q[..i][0] == q[0];
          }
        }
      }
  }

  /** Coverage: the drain reports a prefix of `q` exactly when the tree
      covers `q`. */
  lemma DrainCovers(n: Node, q: Path)
    ensures Covers(n, q) <==> exists p :: p in Drain(n) && p <= q
  {
    CoversDirtyPrefix(n, q);
    if Covers(n, q) {
      var i :| 0 <= i <= |q| && DirtyAt(n, q[..i]);
      DrainMembers(n, q[..i]);
    }
    if exists p :: p in Drain(n) && p <= q {
      var p :| p in Drain(n) && p <= q;
      DrainMembers(n, p);
      assert q[..|p|] == p;
    }
  }

  /** After recording `toks` into any tree, the drain reports a prefix of
      `toks`. */
  lemma RecordedIsReported(n: Node, toks: Path)
    ensures exists p :: p in Drain(Insert(n, toks)) && p <= toks
  {
    DrainCovers(Insert(n, toks), toks);
  }

  /* ---------------------------------------------------------------------
     The path strings reportRecursiveChanges emits.
     --------------------------------------------------------------------- */

  /** The `/`-joins of `pre + p` for every route `p` of `ps`. */
  function Joined(pre: Path, ps: seq<Path>): (r: seq<string>)
    ensures |r| == |ps|
  {
    seq(|ps|, i requires 0 <= i < |ps| => JoinPath(pre + ps[i]))
  }

  /** Starting from the join of `pre`, the strings reportRecursiveChanges
      builds are the joins of `pre` extended by each drained route. */
  lemma {:induction false} DrainAtJoined(pre: Path, n: Node)
    requires ValidPath(pre) && Wf(n)
    ensures DrainAt(JoinPath(pre), n) == Joined(pre, Drain(n))
    decreases n, 1
  {
    match n
    case Dirty =>
      assert pre + [] == pre;
    case Branch(cs) =>
      DrainChildrenAtJoined(pre, n, Enumerate(cs.Keys));
  }

  lemma {:induction false} DrainChildrenAtJoined(pre: Path, n: Node, ks: seq<string>)
    requires ValidPath(pre) && Wf(n)
    requires n.Branch? && forall i :: 0 <= i < |ks| ==> ks[i] in n.children
    ensures DrainChildrenAt(JoinPath(pre), n, ks) == Joined(pre, DrainChildren(n, ks))
    decreases n, 0, |ks|
  {
    if ks != [] {
      var k := ks[0];
      var child := n.children[k];
      var sub := Drain(child);
      assert ValidSegment(k) && Wf(child);
      assert ValidPath(pre + [k]);
      PathJoinSegment(pre, k);
      DrainAtJoined(pre + [k], child);
      DrainChildrenAtJoined(pre, n, ks[1..]);
      JoinedUnder(pre, k, sub);
      JoinedAppend(pre, Under(k, sub), DrainChildren(n, ks[1..]));
    }
  }

  lemma JoinedUnder(pre: Path, k: string, ps: seq<Path>)
    ensures Joined(pre + [k], ps) == Joined(pre, Under(k, ps))
  {
    forall i | 0 <= i < |ps|
      ensures (pre + [k]) + ps[i] == pre + ([k] + ps[i])
    {
    }
  }

  lemma JoinedAppend(pre: Path, a: seq<Path>, b: seq<Path>)
    ensures Joined(pre, a + b) == Joined(pre, a) + Joined(pre, b)
  {
  }

  /** Each string reported from the empty prefix is the `/`-join of the
      valid route to a dirty node, in the reference drain's order. */
  lemma ReportedRoutes(n: Node)
    requires Wf(n)
    ensures DrainAt("", n) == Joined([], Drain(n))
    ensures forall i :: 0 <= i < |Drain(n)| ==>
              DirtyAt(n, Drain(n)[i]) && ValidPath(Drain(n)[i]) &&
              DrainAt("", n)[i] == JoinPath(Drain(n)[i])
  {
    DrainAtJoined([], n);
    var ps := Drain(n);
    forall i | 0 <= i < |ps|
      ensures DirtyAt(n, ps[i]) && ValidPath(ps[i]) && DrainAt("", n)[i] == JoinPath(ps[i])
    {
      DrainMembers(n, ps[i]);
      DirtyAtValid(n, ps[i]);
      assert [] + ps[i] == ps[i];
    }
  }

  /** The strings reported for a tree drained from the empty prefix: one per
      dirty node, never the same string twice, each the `/`-join of the
      route to that dirty node. */
  lemma ReportedStrings(n: Node, p: Path)
    requires Wf(n) && ValidPath(p)
    ensures DrainAt("", n) == Joined([], Drain(n))
    ensures Distinct(DrainAt("", n))
    ensures |DrainAt("", n)| >= 1
    ensures JoinPath(p) in DrainAt("", n) <==> DirtyAt(n, p)
  {
    var ps := Drain(n);
    var ss := DrainAt("", n);
    ReportedRoutes(n);
    DrainDistinct(n);
    DrainNonEmpty(n);
    DrainMembers(n, p);
    forall i, j | 0 <= i < j < |ss|
      ensures ss[i] != ss[j]
    {
      JoinPathInjective(ps[i], ps[j]);
    }
    if JoinPath(p) in ss {
      var i :| 0 <= i < |ss| && ss[i] == JoinPath(p);
      JoinPathInjective(ps[i], p);
    }
    if DirtyAt(n, p) {
      var i :| 0 <= i < |ps| && ps[i] == p;
      assert ss[i] == JoinPath(p);
    }
  }

  /** In a well-formed tree every route to a node consists of valid segments. */
  lemma {:induction false} DirtyAtValid(n: Node, p: Path)
    requires Wf(n) && At(n, p).Some?
    ensures ValidPath(p)
    decreases p
  {
    if p != [] {
      DirtyAtValid(n.children[p[0]], p[1..]);
    }
  }

  /** A dirty root drains to the single empty string: the whole replica. */
  lemma DirtyRootReport()
    ensures DrainAt("", Dirty) == [""]
  {
  }

  /** The tree after recording `x/y` and then `x/z`: both leaves are dirty,
      their parent `x` is a branch. */
  lemma SiblingsTree()
    ensures var n := RecordAll(Empty, [["x", "y"], ["x", "z"]]);
            Wf(n) && DirtyAt(n, ["x", "y"]) && DirtyAt(n, ["x", "z"]) && !DirtyAt(n, ["x"])
  {
    var xy: Path := ["x", "y"];
    var xz: Path := ["x", "z"];
    assert ValidPath(xy) && ValidPath(xz);
    var n1 := Insert(Empty, xy);
    var n := Insert(n1, xz);
    assert RecordAll(n, []) == n;
    assert [xy, xz][1..] == [xz];
    assert RecordAll(n1, [xz]) == RecordAll(n, []);
    InsertWf(Empty, xy);
    InsertWf(n1, xz);
    InsertAlongRoute(Empty, xy, xy);
    InsertOffRoute(n1, xz, xy);
    InsertAlongRoute(n1, xz, xz);
    assert At(n, ["x"]).value.Branch?;
  }

  /** Sibling changes are not merged: recording `x/y` and then `x/z` reports
      both leaves and not their common parent. */
  lemma SiblingsNotMerged()
    ensures var n := RecordAll(Empty, [["x", "y"], ["x", "z"]]);
            "x/y" in DrainAt("", n) && "x/z" in DrainAt("", n) && "x" !in DrainAt("", n)
  {
    SiblingsTree();
    SiblingLeavesReported(RecordAll(Empty, [["x", "y"], ["x", "z"]]));
  }

  /** Any well-formed tree with dirty leaves at `x/y` and `x/z` and no dirty
      node at `x` reports both leaves and not `x`. */
  lemma SiblingLeavesReported(n: Node)
    requires Wf(n) && DirtyAt(n, ["x", "y"]) && DirtyAt(n, ["x", "z"]) && !DirtyAt(n, ["x"])
    ensures "x/y" in DrainAt("", n) && "x/z" in DrainAt("", n) && "x" !in DrainAt("", n)
  {
    assert JoinPath(["x", "y"]) == "x/y";
    assert JoinPath(["x", "z"]) == "x/z";
    assert JoinPath(["x"]) == "x";
    assert ValidPath(["x", "y"]) && ValidPath(["x", "z"]) && ValidPath(["x"]);
    ReportedStrings(n, ["x", "y"]);
    ReportedStrings(n, ["x", "z"]);
    ReportedStrings(n, ["x"]);
  }
}
